=== FILE: README.md ===
# Universal store manager — purchase-state engine in Dafny

This project models the core of the `universalstoremanager` Android library's
`StoreManager`: the engine that keeps an in-memory purchase cache in step
with Google Play Billing, and the `UniversalProductDetails` normaliser
that turns backend product descriptors into flat price records.

Every asynchronous callback of the Java code is flattened into an explicit
input. A backend answer is a response code plus data. An operation is a
pure transition `(store, backend answers) -> (store', listener events,
backend requests)`. The store (`StoreState.Store`) holds:

- the managed subscription and in-app sku lists;
- the ordered listener list;
- `purchaseCache : Option<map<string, Purchase>>`, where `None` means "store not loaded";
- the `debuggable` flag.

Modules, following the Java code's structure:

- `Billing`: response codes, `Purchase`, backend requests, listener events (`StoreEventListener`).
- `StoreState`: the store record, the setters, listener registration.
- `Listeners`: idempotent registration, first-occurrence removal, fan-out of events to listeners.
- `Reconciliation`: `getPurchases` and `updatePurchaseCache`.
- `Intake`: `handlePurchase`, `acknowledgePurchase`, the purchases-updated listener.
- `Consumption`: `consumePurchase`.
- `Connection`: the retry chain of `connectBillingClient` and `setupBillingProcessor`.
- `Entitlements`: `hasAnyConsumable`, `isSubscribedToAny` and the variants built on them.
- `Catalog`: `fromProductDetails`, `getProductDetails`, `getAllProductDetails`, and the decision in `purchase`.
- `Scenarios`: an end-to-end run on concrete answers.

Response-code values are those of the Play Billing Library's `BillingResponseCode`:
OK = 0, ITEM_ALREADY_OWNED = 7, ITEM_NOT_OWNED = 8. The library is not part
of this model. The sentinels -99, -199, -299 and -399 are the store manager's own.

Notes on what the code does:

- Reconciliation issues only the two purchase queries. It never acknowledges (`Reconciliation.ReconciliationOnlyQueries`, `Scenarios.CoinsScenario`).
- A subscription's price is the first pricing phase of the first offer. It is not the lowest non-zero phase (`Catalog.FirstPhaseNotCheapest`).
- The list queries never check that a sku is managed. An unmanaged sku that is a cache key counts as owned.
- Complete and Pending events carry a null sku, modelled as `None`.
- Intake merges into the cache in place. Only reconciliation replaces the whole cache.

## Model

| member | source | states |
|---|---|---|
| `Billing.PutAll` | library/src/main/java/com/appstronautstudios/universalstoremanager/managers/StoreManager.java:285-287 | putting a purchase under its products adds exactly those keys, maps each to the purchase, and keeps every other entry |
| `StoreState.SetManagedSkus` | library/src/main/java/com/appstronautstudios/universalstoremanager/managers/StoreManager.java:96-110 | a null list resets that managed list to empty, a non-null list replaces it; listeners, cache and debug flag are untouched |
| `StoreState.SetDebuggable` | library/src/main/java/com/appstronautstudios/universalstoremanager/managers/StoreManager.java:92-94 | only the debug flag changes |
| `StoreState.AddEventListener` | library/src/main/java/com/appstronautstudios/universalstoremanager/managers/StoreManager.java:112-116 | the listener is registered afterwards, appended after the existing listeners, the list growing by at most one, which all stay in order; the registered set is exactly the old one plus the listener; an already registered one leaves the store unchanged; no duplicate is created; nothing else changes |
| `StoreState.RemoveEventListener` | library/src/main/java/com/appstronautstudios/universalstoremanager/managers/StoreManager.java:118-120 | the first occurrence of the listener is deleted and every other entry stays in order; every other listener keeps its registration; the list shrinks by one exactly when it was registered; on a duplicate-free list the listener is gone afterwards; nothing else changes |
| `Listeners.AddListener` | library/src/main/java/com/appstronautstudios/universalstoremanager/managers/StoreManager.java:112-116 | an already registered listener leaves the list unchanged, even one holding duplicates; otherwise the listener is appended at the end; the new list holds exactly the old listeners plus the added one and stays duplicate-free |
| `Listeners.AddListenerIdempotent` | library/src/main/java/com/appstronautstudios/universalstoremanager/managers/StoreManager.java:112-116 | registering twice equals registering once |
| `Listeners.RemoveListener` | library/src/main/java/com/appstronautstudios/universalstoremanager/managers/StoreManager.java:118-120 | removal deletes exactly the first occurrence, keeps order, and leaves a list without the listener unchanged |
| `Listeners.RemoveListenerKeepsOthers` | library/src/main/java/com/appstronautstudios/universalstoremanager/managers/StoreManager.java:118-120 | on a duplicate-free list removal leaves exactly the other listeners, still duplicate-free |
| `Listeners.RemoveUndoesAdd` | library/src/main/java/com/appstronautstudios/universalstoremanager/managers/StoreManager.java:112-120 | removing a freshly added listener restores the previous list |
| `Listeners.Deliver` | library/src/main/java/com/appstronautstudios/universalstoremanager/managers/StoreManager.java:137-145 | an event is delivered to every registered listener in registration order, once per list entry |
| `Listeners.DeliverExactlyOnce` | library/src/main/java/com/appstronautstudios/universalstoremanager/managers/StoreManager.java:137-174 | with a duplicate-free list each registered listener gets the event exactly once and no one else gets it |
| `Listeners.DeliverAll` | library/src/main/java/com/appstronautstudios/universalstoremanager/managers/StoreManager.java:137-174 | a sequence of events yields events-times-listeners deliveries, each to a registered listener and of a raised event |
| `Listeners.DeliverAllAppend` | library/src/main/java/com/appstronautstudios/universalstoremanager/managers/StoreManager.java:137-174 | delivering two runs of events one after the other is delivering the first run in full and then the second |
| `Listeners.DeliverAllInOrder` | library/src/main/java/com/appstronautstudios/universalstoremanager/managers/StoreManager.java:137-174 | the deliveries of the i-th event are exactly one fan-out of that event to every listener, placed after all deliveries of the earlier events and before those of the later ones |
| `Reconciliation.CollectedKeys` | library/src/main/java/com/appstronautstudios/universalstoremanager/managers/StoreManager.java:386-393 | a product is collected from a query answer exactly when some PURCHASED purchase covers it; PENDING and other states contribute nothing |
| `Reconciliation.CollectedValue` | library/src/main/java/com/appstronautstudios/universalstoremanager/managers/StoreManager.java:386-393 | a collected product maps to the last PURCHASED purchase in the answer that covers it |
| `Reconciliation.GetPurchasesLoop` | library/src/main/java/com/appstronautstudios/universalstoremanager/managers/StoreManager.java:384-393 | the nested for-loops over purchases and products compute the collected map |
| `Reconciliation.GetPurchases` | library/src/main/java/com/appstronautstudios/universalstoremanager/managers/StoreManager.java:377-399 | an OK answer yields a map whose keys are exactly the products of PURCHASED purchases, each mapped to a PURCHASED purchase covering it, the last such; any other code yields failure with that code |
| `Reconciliation.UpdatePurchaseCache` | library/src/main/java/com/appstronautstudios/universalstoremanager/managers/StoreManager.java:340-369 | the INAPP query is issued first and the SUBS query only after it succeeds; the cache is replaced only when both succeed, by the union with SUBS winning shared keys; any failure leaves the store as it was and reports the first failing code |
| `Reconciliation.ReconciledCacheWellFormed` | library/src/main/java/com/appstronautstudios/universalstoremanager/managers/StoreManager.java:340-369 | after a successful reconciliation every cached purchase is PURCHASED and covers its key |
| `Intake.HandlePurchaseKeepsWellFormed` | library/src/main/java/com/appstronautstudios/universalstoremanager/managers/StoreManager.java:282-317 | handling one update keeps that cache invariant, because only PURCHASED purchases are put, each under its own products |
| `Intake.HandleAllKeepsWellFormed` | library/src/main/java/com/appstronautstudios/universalstoremanager/managers/StoreManager.java:179-184 | a whole update batch keeps the cache invariant |
| `Reconciliation.ReconciliationOnlyQueries` | library/src/main/java/com/appstronautstudios/universalstoremanager/managers/StoreManager.java:340-369 | reconciliation issues purchase queries only, never an acknowledgement or a consume |
| `Reconciliation.OnlyPurchasedSurvive` | library/src/main/java/com/appstronautstudios/universalstoremanager/managers/StoreManager.java:386-393 | purchases A (PURCHASED), B (PENDING) and C (other) leave a cache of exactly A |
| `Intake.AcknowledgePurchase` | library/src/main/java/com/appstronautstudios/universalstoremanager/managers/StoreManager.java:320-333 | an acknowledgement of the purchase token is sent exactly when the purchase is unacknowledged and PURCHASED; OK then succeeds, any other code fails with that code; otherwise nothing is sent and no outcome is reported |
| `Intake.AckEvents` | library/src/main/java/com/appstronautstudios/universalstoremanager/managers/StoreManager.java:289-303 | corrected mapping: success raises Complete, failure raises Error with the backend's code, no acknowledgement raises nothing |
| `Intake.AckEventsAsWritten` | library/src/main/java/com/appstronautstudios/universalstoremanager/managers/StoreManager.java:296-301 | as written, every acknowledgement failure raises Error(PURCHASE_FAIL_UNKNOWN) |
| `Intake.AckFailureCodeLost` | library/src/main/java/com/appstronautstudios/universalstoremanager/managers/StoreManager.java:296-301 | as written, two different backend failure codes give the same event, which differs from the corrected one |
| `Intake.HandlePurchase` | library/src/main/java/com/appstronautstudios/universalstoremanager/managers/StoreManager.java:281-318 | only a granting update naming products needs a loaded store (only the two granting branches touch the cache); OK or ITEM_ALREADY_OWNED with PURCHASED puts every product of the purchase and keeps other entries; otherwise the store is unchanged. Only OK+PURCHASED+unacknowledged sends an acknowledgement. OK+PENDING raises Pending. ITEM_ALREADY_OWNED+PURCHASED raises Complete. Other codes raise Error(code). An acknowledged OK+PURCHASED purchase and other states raise nothing. The acknowledgement answer raises Complete on OK and otherwise Error with the backend's code, the corrected behaviour of the Findings row |
| `Intake.Grant` | library/src/main/java/com/appstronautstudios/universalstoremanager/managers/StoreManager.java:284-287 | a loaded cache gains exactly the purchase's products, each mapped to the purchase, and keeps every other entry; an empty product list on a null cache touches nothing |
| `Intake.NoRollbackOnAckFailure` | library/src/main/java/com/appstronautstudios/universalstoremanager/managers/StoreManager.java:283-303 | the store after intake does not depend on the acknowledgement's answer: a failed acknowledgement never rolls back the insertion |
| `Intake.HandlePurchaseIdempotent` | library/src/main/java/com/appstronautstudios/universalstoremanager/managers/StoreManager.java:281-318 | handling the same update twice leaves the store as handling it once |
| `Intake.HandleAll` | library/src/main/java/com/appstronautstudios/universalstoremanager/managers/StoreManager.java:180-186 | a batch needs a loaded store only when some purchase of it writes into the cache; it keeps the load state and changes nothing but the cache |
| `Intake.OnPurchasesUpdated` | library/src/main/java/com/appstronautstudios/universalstoremanager/managers/StoreManager.java:180-186 | a null purchase list changes nothing, raises nothing and sends nothing; a non-null list is handled as a batch, needing a loaded store only when some purchase writes into the cache |
| `Intake.BatchRequests` | library/src/main/java/com/appstronautstudios/universalstoremanager/managers/StoreManager.java:180-186 | under OK a batch sends one acknowledgement per unacknowledged PURCHASED purchase, in batch order, and nothing else; under any other code, ITEM_ALREADY_OWNED included, it sends nothing |
| `Intake.IntakeMergesLikeReconciliation` | library/src/main/java/com/appstronautstudios/universalstoremanager/managers/StoreManager.java:180-186 | under OK or ITEM_ALREADY_OWNED a batch leaves the old cache overridden by exactly what a reconciliation over the same purchases collects |
| `Intake.RejectedBatch` | library/src/main/java/com/appstronautstudios/universalstoremanager/managers/StoreManager.java:315-317 | under any other code a batch leaves the store unchanged, sends nothing and raises one Error(code) per purchase |
| `Consumption.ConsumePurchase` | library/src/main/java/com/appstronautstudios/universalstoremanager/managers/StoreManager.java:449-472 | an sku absent from the cache fails with ITEM_NOT_OWNED and sends nothing; otherwise one consume of the cached token is sent; OK removes exactly that key and returns the backend's token; a failure leaves the store and returns the code |
| `Consumption.ConsumeRemovesOnlyThatKey` | library/src/main/java/com/appstronautstudios/universalstoremanager/managers/StoreManager.java:463-467 | after a successful consume, other keys, including ones sharing the purchase, keep their entries |
| `Consumption.ConsumeTwiceFails` | library/src/main/java/com/appstronautstudios/universalstoremanager/managers/StoreManager.java:449-456 | consuming again after a success fails locally with ITEM_NOT_OWNED and sends nothing |
| `Consumption.ConsumeKeepsWellFormed` | library/src/main/java/com/appstronautstudios/universalstoremanager/managers/StoreManager.java:463-466 | consuming keeps the cache invariant, because it only removes a key |
| `Entitlements.AnyCached` | library/src/main/java/com/appstronautstudios/universalstoremanager/managers/StoreManager.java:618-623 | the sku loop answers true exactly when some listed sku is a cache key |
| `Entitlements.HasAnyConsumable` | library/src/main/java/com/appstronautstudios/universalstoremanager/managers/StoreManager.java:613-628 | false before load; true when loaded and debuggable; otherwise true exactly when some listed sku is a cache key |
| `Entitlements.IsSubscribedToAny` | library/src/main/java/com/appstronautstudios/universalstoremanager/managers/StoreManager.java:650-665 | false before load; true when loaded and debuggable; otherwise true exactly when some listed sku is a cache key |
| `Entitlements.HasAnyManagedConsumable` | library/src/main/java/com/appstronautstudios/universalstoremanager/managers/StoreManager.java:605-607 | the no-argument query answers for the managed in-app list |
| `Entitlements.IsSubscribedToAnyManaged` | library/src/main/java/com/appstronautstudios/universalstoremanager/managers/StoreManager.java:643-645 | the no-argument query answers for the managed subscription list |
| `Entitlements.HasConsumable` | library/src/main/java/com/appstronautstudios/universalstoremanager/managers/StoreManager.java:596-600 | the single-sku query is true exactly when loaded and (debuggable or the sku is a cache key) |
| `Entitlements.IsSubscribedTo` | library/src/main/java/com/appstronautstudios/universalstoremanager/managers/StoreManager.java:634-638 | the single-sku query is true exactly when loaded and (debuggable or the sku is a cache key) |
| `Entitlements.HasAnySubOrConsumable` | library/src/main/java/com/appstronautstudios/universalstoremanager/managers/StoreManager.java:584-590 | true whenever debuggable, even before load; otherwise true exactly when loaded and some listed sku of either list is a cache key |
| `Entitlements.HasAnyManagedSubOrConsumable` | library/src/main/java/com/appstronautstudios/universalstoremanager/managers/StoreManager.java:575-577 | true when debuggable, otherwise the disjunction of the two managed-list queries |
| `Entitlements.DebugOverrideBeforeLoad` | library/src/main/java/com/appstronautstudios/universalstoremanager/managers/StoreManager.java:584-590 | before load with the debug flag, the combined query says yes while both list queries say no |
| `Entitlements.QueriesIgnoreCachedValues` | library/src/main/java/com/appstronautstudios/universalstoremanager/managers/StoreManager.java:613-665 | the answers depend only on load state, debug flag and which keys are cached |
| `Connection.ConnectBillingClient` | library/src/main/java/com/appstronautstudios/universalstoremanager/managers/StoreManager.java:209-242 | CONNECTED goes to reconciliation with no start; CONNECTING does nothing; otherwise a start is made, and a first start answering OK goes to reconciliation after that one start; failures retry while the counter is positive; every start is made by a call that found the client neither CONNECTED nor CONNECTING; at most counter+1 starts; every start before the last failed; a failure reports the last start's non-OK code after exactly counter+1 starts; a chain ends coalesced only on finding the client CONNECTING, never right after a successful start |
| `Connection.PersistentFailureExhaustsBudget` | library/src/main/java/com/appstronautstudios/universalstoremanager/managers/StoreManager.java:210-231 | when no call finds the client CONNECTED or CONNECTING and every setup fails, exactly counter+1 starts are made and the last code is reported |
| `Connection.AttemptBounds` | library/src/main/java/com/appstronautstudios/universalstoremanager/managers/StoreManager.java:206-238 | setup (counter 2) makes at most three attempts; the unsolicited-disconnect path (counter 0) at most one |
| `Connection.SetupBillingProcessor` | library/src/main/java/com/appstronautstudios/universalstoremanager/managers/StoreManager.java:176-207 | the managed lists are recorded, the start requests come first, and reconciliation follows only a connection; when the connection chain reaches reconciliation the result is exactly that chain's starts followed by the reconciliation over the recorded lists, with its store and its callback; a coalesced chain never calls back; a failed one reports its code with the cache untouched; a coalesced or failed chain sends nothing but its starts |
| `Catalog.FromProductDetails` | library/src/main/java/com/appstronautstudios/universalstoremanager/managers/UniversalProductDetails.java:25-65 | null yields five "N/A" fields and not-a-subscription; otherwise id, title and description are copied and isSubscription holds iff there is an offer list; an empty offer list gives N/A prices; a first offer with no phases is the only failure; otherwise the first phase of the first offer, or the one-time offer, or N/A |
| `Catalog.FirstPhaseNotCheapest` | library/src/main/java/com/appstronautstudios/universalstoremanager/managers/UniversalProductDetails.java:39-48 | a free trial phase ahead of a paid phase is what the descriptor reports: no minimum or non-zero search |
| `Catalog.ConvertAll` | library/src/main/java/com/appstronautstudios/universalstoremanager/managers/StoreManager.java:555-560 | the conversion loop either returns one descriptor per product, in order, each the product's conversion, or fails exactly when some product fails to convert |
| `Catalog.GetProductDetails` | library/src/main/java/com/appstronautstudios/universalstoremanager/managers/StoreManager.java:537-569 | a non-OK code passes through; an OK answer yields one descriptor per product in order, or PARSING_FAIL_UNKNOWN exactly when some conversion fails; an OK answer succeeds exactly when every product converts; failures are always Integer codes |
| `Catalog.SecondFetchFailure` | library/src/main/java/com/appstronautstudios/universalstoremanager/managers/StoreManager.java:501-508 | an Integer failure passes through; any other value becomes DETAIL_FAIL_UNKNOWN |
| `Catalog.GetAllProductDetails` | library/src/main/java/com/appstronautstudios/universalstoremanager/managers/StoreManager.java:480-517 | the SUBS fetch over the managed subscription list comes first, the INAPP fetch only after it succeeds; success is the subscription descriptors followed by the in-app ones; a failure reports the failing fetch's value |
| `Catalog.CatalogFailureIsFetchCode` | library/src/main/java/com/appstronautstudios/universalstoremanager/managers/StoreManager.java:501-508 | the DETAIL_FAIL_UNKNOWN fallback cannot fire: every combined failure is PARSING_FAIL_UNKNOWN or a fetch's response code |
| `Catalog.PurchaseFlow` | library/src/main/java/com/appstronautstudios/universalstoremanager/managers/StoreManager.java:248-279 | the product is queried with its type; an OK non-empty answer launches the flow for the first product, with an offer token exactly for a subscription that has offers, that token being the first offer's; otherwise exactly the query is sent and exactly one Error with the response code is raised |
| `Scenarios.CoinsScenario` | library/src/main/java/com/appstronautstudios/universalstoremanager/managers/StoreManager.java:176-207 | setup on a connected client with one unacknowledged coins_100 purchase caches it, sends only the two queries, answers the consumable query yes and the subscription query no; a following consume sends the cached token, returns the backend's token and empties the cache |

## Findings

| source | as written | input that shows it | evidently intended | confidence | as-written member | corrected member |
|---|---|---|---|---|---|---|
| library/src/main/java/com/appstronautstudios/universalstoremanager/managers/StoreManager.java:296-301 | the acknowledgement failure handler passes the code through only for a `BillingResult`, but `acknowledgePurchase` (line 329) hands it an `Integer` response code, so every failure becomes PURCHASE_FAIL_UNKNOWN | an OK+PURCHASED unacknowledged purchase whose acknowledgement answers SERVICE_UNAVAILABLE (2): listeners get Error(-199), not Error(2) | listeners receive Error with the backend's acknowledgement code | high, not executed | `Intake.AckEventsAsWritten`, `Intake.AckFailureCodeLost` | `Intake.AckEvents`, used by `Intake.HandlePurchase` |

## Left out

- Encrypted persistence and its Gson serialisation (`initSharedPrefs`, `loadPurchasesFromPrefs`, `savePurchasesToPrefs`) are foreign libraries. The save after a reconciliation is not modelled. Before any successful reconciliation the cache is null. If stored purchases exist, the put at line 413 throws, line 421 catches the exception, and nothing is loaded. Missing preferences (line 403) or an empty stored list (line 406) load nothing without an exception.
- Posting to the main thread is scheduling, so it is not modelled. Events are an ordered list, and callbacks arrive in the order the operations run.
- Constructing the billing client is not modelled. Nor are the singleton guard or the exception from a second instantiation.
- Only the two granting branches of `handlePurchase` (lines 286 and 311) and the cache lookup of `consumePurchase` (line 450) dereference the cache, and before load that throws. `Intake.HandlePurchase` and `Intake.HandleAll` require a loaded store only when a granted purchase names products, and `Consumption.ConsumePurchase` requires one always.
- `Connection.SetupBillingProcessor`: a repeated setup, with the cache already loaded, merges the persisted purchases into it (lines 192 and 412-414) before connecting; the model leaves the cache as it was at that point. Persistence is also one-sided: a consume (line 466) removes the key from memory but never saves, so the stored list can still hold a consumed purchase.
- `StoreState.SetManagedSkus`: the Java setter clears and refills the stored lists in place (lines 98-99 and 105-106), and `setupBillingProcessor` keeps the caller's lists by reference (lines 189-190), so passing back a list the store already holds empties it. The model treats lists as values and does not model this aliasing. Nor does it model setup storing a null list, which the setter would reset to empty but setup keeps.
- The unsolicited-disconnect callback restarts a chain with counter 0. Only such a chain is modelled (`Connection.AttemptBounds`), not the unbounded sequence of disconnects that could follow.
- The connection state read by each call and each setup answer are inputs (`probe`, `setup`). The billing client's own state changes are not modelled.
- `getSubDetails` and `getInAppDetails` are a single `getProductDetails` call on one managed list. `Catalog.GetProductDetails` covers them without separate members.
- In `getAllProductDetails`, a list is appended only when it is non-empty and starts with a descriptor. For typed descriptor lists this is plain concatenation, and the model writes it that way.
- The backend's original purchase payload and everything else a `Purchase` carries beyond products, token, state and acknowledged flag is not modelled.
- `Entitlements.HasAnySubOrConsumable`: the lists are non-null values, so a null argument is not modelled. The Javadoc (lines 580-582) says a null list falls back to the managed set, but the code has no such fallback. With the debug flag set the answer is true (line 585). Before load the list queries return false (lines 626 and 663). When the store is loaded and not debuggable, the loop over a null list (line 618 or 655) throws a NullPointerException. The managed-set behaviour is the no-argument overload (line 576), modelled by `Entitlements.HasAnyManagedSubOrConsumable`.
- `Intake.HandleAll`: its own contract states only the load requirement and that nothing but the cache changes. Its cache behaviour is stated by `Intake.IntakeMergesLikeReconciliation`, its requests by `Intake.BatchRequests`, its events under a rejecting code by `Intake.RejectedBatch`; the events of an OK batch are those of `Intake.HandlePurchase` per purchase and have no separate lemma.
- The older `library` package's `StoreManager` and the demo activities are not part of this model. The old package delegates to the anjlab `BillingProcessor` library, which is not part of this model; the demo activities are user-interface code.

=== FILE: billing.dfy ===
/** The vocabulary shared by every part of the store manager: the billing
    backend's response codes, purchases as the backend reports them, the
    requests the store manager issues to the backend, and the events it raises
    to registered listeners. */
module Billing {
  import opened Wrappers

  // Backend response codes (values of the Play Billing Library's
  // BillingResponseCode that the store manager tests for).
  const OK: int := 0
  const ITEM_ALREADY_OWNED: int := 7
  const ITEM_NOT_OWNED: int := 8

  // Store-manager sentinel codes for failures with no backend equivalent.
  const INIT_FAIL_UNKNOWN: int := -99
  const PURCHASE_FAIL_UNKNOWN: int := -199
  const DETAIL_FAIL_UNKNOWN: int := -299
  const PARSING_FAIL_UNKNOWN: int := -399

  /** State of a purchase; `Unspecified` stands for every state other than
      PURCHASED and PENDING. */
  datatype PurchaseState = Purchased | Pending | Unspecified

  /** One purchase grant. A single purchase may cover several products. */
  datatype Purchase = Purchase(
    products: seq<string>,
    token: string,
    state: PurchaseState,
    acknowledged: bool)

  /** The in-memory purchase cache: product identifier to purchase. */
  type Cache = map<string, Purchase>

  datatype ProductType = InApp | Subs

  /** Connection state as reported by the billing client; `Disconnected`
      and `Closed` are both "other" to the store manager. */
  datatype ConnectionState = Disconnected | Connecting | Connected | Closed

  /** A call the store manager makes into the billing backend. */
  datatype Request =
    | StartConnection
    | QueryPurchases(productType: ProductType)
    | Acknowledge(purchaseToken: string)
    | Consume(purchaseToken: string)
    | QueryProductDetails(productIds: seq<string>, productType: ProductType)
    | LaunchBillingFlow(productId: string, offerToken: Option<string>)

  /** An event fanned out to every registered store listener. The source
      always raises Complete and Pending with a null sku. */
  datatype StoreEvent =
    | PurchasePending(sku: Option<string>)
    | PurchaseComplete(sku: Option<string>)
    | PurchaseError(code: int)

  /** A backend answer to a purchase query: response code and purchase list. */
  datatype PurchasesReply = PurchasesReply(code: int, purchases: seq<Purchase>)

  /** Puts `p` under each of `ks`, in order, as the Java `for` loops over a
      purchase's products do. */
  function PutAll(m: Cache, ks: seq<string>, p: Purchase): (r: Cache)
    ensures forall k :: k in r <==> k in m || k in ks
    ensures forall k :: k in ks ==> r[k] == p
    ensures forall k :: k in m && k !in ks ==> r[k] == m[k]
    decreases |ks|
  {
    if |ks| == 0 then m
    else
      var n := |ks| - 1;
      assert forall k :: k in ks <==> k in ks[..n] || k == ks[n];
      PutAll(m, ks[..n], p)[ks[n] := p]
  }

  /** Every product of `p` now maps to `p`. */
  function PutProducts(m: Cache, p: Purchase): Cache {
    PutAll(m, p.products, p)
  }
}

=== FILE: catalog.dfy ===
/** The product catalog: `UniversalProductDetails.fromProductDetails`
    normalises one backend product descriptor, `getProductDetails`
    converts a whole backend answer (all or nothing), `getAllProductDetails`
    chains the subscription and in-app fetches, and `purchase` decides
    whether a billing flow is launched. */
module Catalog {
  import opened Wrappers
  import opened Billing
  import opened StoreState

  datatype PricingPhase = PricingPhase(formattedPrice: string, priceCurrencyCode: string)

  datatype SubscriptionOffer = SubscriptionOffer(offerToken: string, pricingPhases: seq<PricingPhase>)

  datatype OneTimeOffer = OneTimeOffer(formattedPrice: string, priceCurrencyCode: string)

  /** A backend product: a subscription has a (possibly empty) offer list,
      a one-time product has none and may carry a one-time offer. */
  datatype ProductDetails = ProductDetails(
    productId: string,
    title: string,
    description: string,
    subscriptionOffers: Option<seq<SubscriptionOffer>>,
    oneTimeOffer: Option<OneTimeOffer>)

  /** The immutable, backend-agnostic descriptor handed to the application. */
  datatype UniversalProductDetails = UniversalProductDetails(
    productId: string,
    title: string,
    description: string,
    price: string,
    priceCurrencyCode: string,
    isSubscription: bool)

  const NotAvailable: string := "N/A"

  /** Reading the first pricing phase of an offer whose phase list is
      empty throws; that is the one way a conversion fails. */
  datatype ConversionError = NoPricingPhase

  function FromProductDetails(details: Option<ProductDetails>): (r: Result<UniversalProductDetails, ConversionError>)
    ensures details.None? ==>
      r == Success(UniversalProductDetails(NotAvailable, NotAvailable, NotAvailable, NotAvailable, NotAvailable, false))
    ensures r.Failure? <==>
      && details.Some?
      && details.value.subscriptionOffers.Some?
      && |details.value.subscriptionOffers.value| > 0
      && |details.value.subscriptionOffers.value[0].pricingPhases| == 0
    ensures details.Some? && r.Success? ==>
      && r.value.productId == details.value.productId
      && r.value.title == details.value.title
      && r.value.description == details.value.description
      && (r.value.isSubscription <==> details.value.subscriptionOffers.Some?)
    ensures details.Some? && details.value.subscriptionOffers.Some? && |details.value.subscriptionOffers.value| == 0 ==>
      r.Success? && r.value.price == NotAvailable && r.value.priceCurrencyCode == NotAvailable
    ensures details.Some? && details.value.subscriptionOffers.Some? && r.Success? &&
            |details.value.subscriptionOffers.value| > 0 ==>
      var phase := details.value.subscriptionOffers.value[0].pricingPhases[0];
      r.value.price == phase.formattedPrice && r.value.priceCurrencyCode == phase.priceCurrencyCode
    ensures details.Some? && details.value.subscriptionOffers.None? ==>
      r.Success? &&
      match details.value.oneTimeOffer
      case None => r.value.price == NotAvailable && r.value.priceCurrencyCode == NotAvailable
      case Some(o) => r.value.price == o.formattedPrice && r.value.priceCurrencyCode == o.priceCurrencyCode
  {
    match details
    case None =>
      Success(UniversalProductDetails(NotAvailable, NotAvailable, NotAvailable, NotAvailable, NotAvailable, false))
    case Some(d) =>
      match d.subscriptionOffers
      case Some(offers) =>
        if |offers| == 0 then
          Success(UniversalProductDetails(d.productId, d.title, d.description, NotAvailable, NotAvailable, true))
        else if |offers[0].pricingPhases| == 0 then
          Failure(NoPricingPhase)
        else
          var phase := offers[0].pricingPhases[0];
          Success(UniversalProductDetails(d.productId, d.title, d.description,
                                          phase.formattedPrice, phase.priceCurrencyCode, true))
      case None =>
        match d.oneTimeOffer
        case None =>
          Success(UniversalProductDetails(d.productId, d.title, d.description, NotAvailable, NotAvailable, false))
        case Some(o) =>
          Success(UniversalProductDetails(d.productId, d.title, d.description,
                                          o.formattedPrice, o.priceCurrencyCode, false))
  }

  /** The subscription price is the first phase of the first offer, not the
      cheapest non-zero one: a free trial phase in front of a paid phase
      is what the descriptor reports. */
  lemma FirstPhaseNotCheapest(id: string, title: string, desc: string, token: string)
    ensures
      var trial := PricingPhase("Free", "USD");
      var paid := PricingPhase("$4.99", "USD");
      var d := ProductDetails(id, title, desc, Some([SubscriptionOffer(token, [trial, paid])]), None);
      FromProductDetails(Some(d)) == Success(UniversalProductDetails(id, title, desc, "Free", "USD", true))
  {
  }

  /** A failure value as the Java callbacks receive it: an Integer response
      code, or some other object. */
  datatype FailureValue = IntegerCode(code: int) | OtherObject

  /** A backend answer to a product-details query. */
  datatype DetailsReply = DetailsReply(code: int, products: seq<ProductDetails>)

  /** The conversion loop: all descriptors in order, or the first failure. */
  function ConvertAll(ps: seq<ProductDetails>): (r: Result<seq<UniversalProductDetails>, ConversionError>)
    ensures r.Success? ==> |r.value| == |ps|
    ensures r.Success? ==> forall i :: 0 <= i < |ps| ==> FromProductDetails(Some(ps[i])) == Success(r.value[i])
    ensures r.Failure? <==> exists i :: 0 <= i < |ps| && FromProductDetails(Some(ps[i])).Failure?
  {
    if |ps| == 0 then Success([])
    else
      match FromProductDetails(Some(ps[0]))
      case Failure(e) => Failure(e)
      case Success(u) =>
        match ConvertAll(ps[1..])
        case Failure(e) =>
          assert exists i :: 0 <= i < |ps| && FromProductDetails(Some(ps[i])).Failure? by {
            var i :| 0 <= i < |ps[1..]| && FromProductDetails(Some(ps[1..][i])).Failure?;
            assert ps[i + 1] == ps[1..][i];
          }
          Failure(e)
        case Success(us) =>
          assert forall i :: 1 <= i < |ps| ==> ps[i] == ps[1..][i - 1];
          Success([u] + us)
  }

  /** `getProductDetails`: on OK, one descriptor per backend product in
      order, or PARSING_FAIL_UNKNOWN if any conversion throws; otherwise
      the response code. Failures are always Integer codes. */
  function GetProductDetails(reply: DetailsReply): (r: Result<seq<UniversalProductDetails>, FailureValue>)
    ensures r.Failure? ==> r.error.IntegerCode?
    ensures reply.code != OK ==> r == Failure(IntegerCode(reply.code))
    ensures reply.code == OK && r.Success? ==> |r.value| == |reply.products|
    ensures reply.code == OK && r.Success? ==>
      forall i :: 0 <= i < |reply.products| ==> FromProductDetails(Some(reply.products[i])) == Success(r.value[i])
    ensures reply.code == OK ==>
      (r == Failure(IntegerCode(PARSING_FAIL_UNKNOWN)) <==>
        exists i :: 0 <= i < |reply.products| && FromProductDetails(Some(reply.products[i])).Failure?)
    ensures reply.code == OK ==>
      (r.Success? <==> forall i :: 0 <= i < |reply.products| ==> FromProductDetails(Some(reply.products[i])).Success?)
  {
    if reply.code == OK then
      match ConvertAll(reply.products)
      case Success(us) => Success(us)
      case Failure(_) => Failure(IntegerCode(PARSING_FAIL_UNKNOWN))
    else Failure(IntegerCode(reply.code))
  }

  /** The failure handler of the second fetch in `getAllProductDetails`. */
  function SecondFetchFailure(f: FailureValue): (r: FailureValue)
    ensures r.IntegerCode?
    ensures f.IntegerCode? ==> r == f
    ensures f.OtherObject? ==> r == IntegerCode(DETAIL_FAIL_UNKNOWN)
  {
    if f.IntegerCode? then f else IntegerCode(DETAIL_FAIL_UNKNOWN)
  }

  datatype CatalogResult = CatalogResult(requests: seq<Request>, callback: Result<seq<UniversalProductDetails>, FailureValue>)

  /** `getAllProductDetails`: the subscription fetch over the managed
      subscription list, then (only after it succeeds) the in-app fetch
      over the managed in-app list; the catalog is the subscription
      descriptors followed by the in-app descriptors. */
  function GetAllProductDetails(s: Store, subsReply: DetailsReply, inAppReply: DetailsReply): (r: CatalogResult)
    ensures 1 <= |r.requests| <= 2
    ensures r.requests[0] == QueryProductDetails(s.subscriptionSkus, Subs)
    ensures |r.requests| == 2 <==> GetProductDetails(subsReply).Success?
    ensures |r.requests| == 2 ==> r.requests[1] == QueryProductDetails(s.inAppSkus, InApp)
    ensures r.callback.Success? <==> GetProductDetails(subsReply).Success? && GetProductDetails(inAppReply).Success?
    ensures r.callback.Success? ==>
      r.callback.value == GetProductDetails(subsReply).value + GetProductDetails(inAppReply).value
    ensures GetProductDetails(subsReply).Failure? ==> r.callback == Failure(GetProductDetails(subsReply).error)
    ensures GetProductDetails(subsReply).Success? && GetProductDetails(inAppReply).Failure? ==>
      r.callback == Failure(GetProductDetails(inAppReply).error)
  {
    var first := [QueryProductDetails(s.subscriptionSkus, Subs)];
    match GetProductDetails(subsReply)
    case Failure(f) => CatalogResult(first, Failure(f))
    case Success(subs) =>
      var requests := first + [QueryProductDetails(s.inAppSkus, InApp)];
      match GetProductDetails(inAppReply)
      case Failure(f) => CatalogResult(requests, Failure(SecondFetchFailure(f)))
      case Success(inApps) => CatalogResult(requests, Success(subs + inApps))
  }

  /** The DETAIL_FAIL_UNKNOWN fallback never fires: every failure of the
      combined fetch is the Integer code of the fetch that failed. */
  lemma CatalogFailureIsFetchCode(s: Store, subsReply: DetailsReply, inAppReply: DetailsReply)
    requires GetAllProductDetails(s, subsReply, inAppReply).callback.Failure?
    ensures var f := GetAllProductDetails(s, subsReply, inAppReply).callback.error;
      f.IntegerCode? &&
      (f.code == PARSING_FAIL_UNKNOWN || f.code == subsReply.code || f.code == inAppReply.code)
  {
  }

  /** Backend calls and listener events of an operation that leaves the
      store unchanged. */
  datatype FlowStep = FlowStep(requests: seq<Request>, events: seq<StoreEvent>)

  /** `purchase`: query the product, then launch the billing flow for the
      first returned product, with the first offer's token for a
      subscription that has offers. An error response or an empty product
      list raises an error event with the response code instead. */
  function PurchaseFlow(productId: string, isSubscription: bool, reply: DetailsReply): (r: FlowStep)
    ensures |r.requests| >= 1
    ensures r.requests[0] == QueryProductDetails([productId], if isSubscription then Subs else InApp)
    ensures |r.requests| == (if reply.code == OK && |reply.products| > 0 then 2 else 1)
    ensures |r.requests| == 2 ==>
      && r.events == []
      && r.requests[1].LaunchBillingFlow?
      && r.requests[1].productId == reply.products[0].productId
    ensures |r.requests| == 2 ==>
      (r.requests[1].offerToken.Some? <==>
        isSubscription && reply.products[0].subscriptionOffers.Some? && |reply.products[0].subscriptionOffers.value| > 0)
    ensures |r.requests| == 2 && r.requests[1].offerToken.Some? ==>
      r.requests[1].offerToken == Some(reply.products[0].subscriptionOffers.value[0].offerToken)
    ensures |r.requests| == 1 ==> r.events == [PurchaseError(reply.code)]
  {
    var query := [QueryProductDetails([productId], if isSubscription then Subs else InApp)];
    if reply.code == OK && |reply.products| > 0 then
      var d := reply.products[0];
      var token := if isSubscription && d.subscriptionOffers.Some? && |d.subscriptionOffers.value| > 0
                   then Some(d.subscriptionOffers.value[0].offerToken) else None;
      FlowStep(query + [LaunchBillingFlow(d.productId, token)], [])
    else FlowStep(query, [PurchaseError(reply.code)])
  }
}

=== FILE: connection.dfy ===
/** The connection-retry decision of `connectBillingClient` and its use in
    `setupBillingProcessor`. Each call reads the client's connection state;
    a CONNECTED client goes straight to reconciliation, a CONNECTING one is
    left alone, and any other state starts a connection whose failure is
    retried while the counter is positive. What the backend reports is an
    input: `probe(i)` is the state the i-th call reads and `setup(i)` the
    setup response if that call starts a connection. */
module Connection {
  import opened Wrappers
  import opened Billing
  import opened StoreState
  import Reconciliation

  /** How one `connectBillingClient` chain ends. */
  datatype ConnectOutcome =
    | ReadyToReconcile   // connected: the cache update runs next
    | Coalesced          // another connection attempt is in flight: nothing happens
    | SetupFailed(code: int)  // retries exhausted: the callback fails with the last code

  /** The outcome, and how many `startConnection` calls were made. */
  datatype ConnectRun = ConnectRun(outcome: ConnectOutcome, starts: nat)

  function Budget(retryCounter: int): nat {
    if retryCounter > 0 then retryCounter else 0
  }

  /** The chain started by call number `call` with `retryCounter` retries left. */
  function ConnectBillingClient(retryCounter: int, call: nat, probe: nat -> ConnectionState, setup: nat -> int): (r: ConnectRun)
    ensures probe(call) == Connected ==> r == ConnectRun(ReadyToReconcile, 0)
    ensures probe(call) == Connecting ==> r == ConnectRun(Coalesced, 0)
    ensures probe(call) != Connected && probe(call) != Connecting ==> r.starts >= 1
    ensures probe(call) != Connected && probe(call) != Connecting && setup(call) == OK ==>
      r == ConnectRun(ReadyToReconcile, 1)
    ensures r.starts <= Budget(retryCounter) + 1
    ensures r.outcome.SetupFailed? ==>
      && r.starts >= 1
      && r.outcome.code == setup(call + r.starts - 1)
      && r.outcome.code != OK
      && r.starts == Budget(retryCounter) + 1
    ensures forall j :: call <= j < call + r.starts - 1 ==> setup(j) != OK
    ensures forall j :: call <= j < call + r.starts ==> probe(j) != Connected && probe(j) != Connecting
    ensures r.outcome.ReadyToReconcile? ==>
      (r.starts > 0 && setup(call + r.starts - 1) == OK) || probe(call + r.starts) == Connected
    ensures r.outcome.Coalesced? ==>
      probe(call + r.starts) == Connecting && (r.starts == 0 || setup(call + r.starts - 1) != OK)
    decreases Budget(retryCounter)
  {
    var state := probe(call);
    if state == Connected then ConnectRun(ReadyToReconcile, 0)
    else if state == Connecting then ConnectRun(Coalesced, 0)
    else if setup(call) == OK then ConnectRun(ReadyToReconcile, 1)
    else if retryCounter > 0 then
      var next := ConnectBillingClient(retryCounter - 1, call + 1, probe, setup);
      ConnectRun(next.outcome, next.starts + 1)
    else ConnectRun(SetupFailed(setup(call)), 1)
  }

  /** When no call finds the client connected or connecting and every setup fails,
      the chain makes exactly counter + 1 attempts and reports the last
      setup code. */
  lemma {:induction false} PersistentFailureExhaustsBudget(retryCounter: int, call: nat, probe: nat -> ConnectionState, setup: nat -> int)
    requires forall j :: call <= j <= call + Budget(retryCounter) ==>
      probe(j) != Connected && probe(j) != Connecting && setup(j) != OK
    ensures ConnectBillingClient(retryCounter, call, probe, setup)
         == ConnectRun(SetupFailed(setup(call + Budget(retryCounter))), Budget(retryCounter) + 1)
    decreases Budget(retryCounter)
  {
    var first := probe(call);
    assert first != Connected && first != Connecting && setup(call) != OK;
    if retryCounter > 0 {
      assert Budget(retryCounter - 1) == Budget(retryCounter) - 1;
      PersistentFailureExhaustsBudget(retryCounter - 1, call + 1, probe, setup);
    }
  }

  /** The retry counter `setupBillingProcessor` starts with. */
  const SetupRetries: int := 2

  /** Setup makes at most three connection attempts; an unsolicited
      disconnect (counter 0) makes at most one. */
  lemma AttemptBounds(probe: nat -> ConnectionState, setup: nat -> int)
    ensures ConnectBillingClient(SetupRetries, 0, probe, setup).starts <= 3
    ensures ConnectBillingClient(0, 0, probe, setup).starts <= 1
  {
  }

  /** What the caller of `setupBillingProcessor` observes: the final store,
      every backend call in order, and the callback (none when the chain
      was coalesced into an attempt already in flight). */
  datatype SetupResult = SetupResult(store: Store, requests: seq<Request>, callback: Option<Result<Cache, int>>)

  function StartRequests(n: nat): (r: seq<Request>)
    ensures |r| == n && forall q :: q in r ==> q == StartConnection
  {
    seq(n, _ => StartConnection)
  }

  /** `setupBillingProcessor`: record the managed lists, connect with two
      retries, and on a connection run the reconciliation. */
  function SetupBillingProcessor(s: Store, subs: seq<string>, inApps: seq<string>,
                                 probe: nat -> ConnectionState, setup: nat -> int,
                                 inAppReply: PurchasesReply, subsReply: PurchasesReply): (r: SetupResult)
    ensures r.store.subscriptionSkus == subs && r.store.inAppSkus == inApps
    ensures r.store.listeners == s.listeners && r.store.debuggable == s.debuggable
    ensures var run := ConnectBillingClient(SetupRetries, 0, probe, setup);
      && |r.requests| >= run.starts
      && r.requests[..run.starts] == StartRequests(run.starts)
      && (run.outcome.Coalesced? ==> r.callback.None? && r.store.purchaseCache == s.purchaseCache)
      && (run.outcome.SetupFailed? ==> r.callback == Some(Failure(run.outcome.code))
                                       && r.store.purchaseCache == s.purchaseCache)
      && (run.outcome.ReadyToReconcile? ==>
            r.callback.Some? && |r.requests| > run.starts && r.requests[run.starts] == QueryPurchases(InApp))
    ensures r.callback.Some? && r.callback.value.Success? ==> r.store.purchaseCache == Some(r.callback.value.value)
    ensures var run := ConnectBillingClient(SetupRetries, 0, probe, setup);
      var rec := Reconciliation.UpdatePurchaseCache(s.(subscriptionSkus := subs, inAppSkus := inApps), inAppReply, subsReply);
      run.outcome.ReadyToReconcile? ==>
        r == SetupResult(rec.store, StartRequests(run.starts) + rec.requests, Some(rec.callback))
    ensures var run := ConnectBillingClient(SetupRetries, 0, probe, setup);
      !run.outcome.ReadyToReconcile? ==> r.requests == StartRequests(run.starts)
  {
    var configured := s.(subscriptionSkus := subs, inAppSkus := inApps);
    var run := ConnectBillingClient(SetupRetries, 0, probe, setup);
    var starts := StartRequests(run.starts);
    match run.outcome
    case Coalesced =>
      assert starts[..run.starts] == starts;
      SetupResult(configured, starts, None)
    case SetupFailed(code) =>
      assert starts[..run.starts] == starts;
      SetupResult(configured, starts, Some(Failure(code)))
    case ReadyToReconcile =>
      var rec := Reconciliation.UpdatePurchaseCache(configured, inAppReply, subsReply);
      assert (starts + rec.requests)[..run.starts] == starts;
      assert (starts + rec.requests)[run.starts] == rec.requests[0];
      SetupResult(rec.store, starts + rec.requests, Some(rec.callback))
  }
}

=== FILE: consumption.dfy ===
/** Consuming a one-time purchase: only a cached product can be consumed,
    the consume call carries the cached purchase's token, and only a
    successful consume removes the product from the cache. */
module Consumption {
  import opened Wrappers
  import opened Billing
  import opened StoreState
  import Reconciliation

  /** The backend's answer to a consume call: response code and the token
      it reports back. */
  datatype ConsumeReply = ConsumeReply(code: int, purchaseToken: string)

  /** The new store, the backend calls issued, and what the caller's
      callback receives: the consumed token or a response code. */
  datatype Consumed = Consumed(store: Store, requests: seq<Request>, callback: Result<string, int>)

  function ConsumePurchase(s: Store, sku: string, reply: ConsumeReply): (r: Consumed)
    requires IsStoreLoaded(s)
    ensures sku !in s.purchaseCache.value ==>
      r.store == s && r.requests == [] && r.callback == Failure(ITEM_NOT_OWNED)
    ensures sku in s.purchaseCache.value ==>
      r.requests == [Consume(s.purchaseCache.value[sku].token)]
    ensures sku in s.purchaseCache.value && reply.code == OK ==>
      && r.callback == Success(reply.purchaseToken)
      && r.store == s.(purchaseCache := Some(s.purchaseCache.value - {sku}))
    ensures sku in s.purchaseCache.value && reply.code != OK ==>
      r.store == s && r.callback == Failure(reply.code)
  {
    var cache := s.purchaseCache.value;
    if sku !in cache then Consumed(s, [], Failure(ITEM_NOT_OWNED))
    else
      var requests := [Consume(cache[sku].token)];
      if reply.code == OK then
        Consumed(s.(purchaseCache := Some(cache - {sku})), requests, Success(reply.purchaseToken))
      else Consumed(s, requests, Failure(reply.code))
  }

  /** A successful consume removes only the consumed key: other products
      sharing the same purchase stay cached, and the product is no longer
      owned. */
  lemma ConsumeRemovesOnlyThatKey(s: Store, sku: string, reply: ConsumeReply, other: string)
    requires IsStoreLoaded(s) && sku in s.purchaseCache.value && reply.code == OK
    requires other != sku && other in s.purchaseCache.value
    ensures other in ConsumePurchase(s, sku, reply).store.purchaseCache.value
    ensures ConsumePurchase(s, sku, reply).store.purchaseCache.value[other] == s.purchaseCache.value[other]
    ensures sku !in ConsumePurchase(s, sku, reply).store.purchaseCache.value
  {
  }

  /** Consuming the same product again after a success fails locally with
      ITEM_NOT_OWNED and reaches no backend. */
  lemma ConsumeTwiceFails(s: Store, sku: string, first: ConsumeReply, second: ConsumeReply)
    requires IsStoreLoaded(s) && first.code == OK
    ensures var after := ConsumePurchase(s, sku, first).store;
      ConsumePurchase(after, sku, second).callback == Failure(ITEM_NOT_OWNED) &&
      ConsumePurchase(after, sku, second).requests == []
  {
  }

  /** Consuming keeps the cache invariant: it only removes a key. */
  lemma ConsumeKeepsWellFormed(s: Store, sku: string, reply: ConsumeReply)
    requires IsStoreLoaded(s) && Reconciliation.CacheWellFormed(s)
    ensures Reconciliation.CacheWellFormed(ConsumePurchase(s, sku, reply).store)
  {
  }
}

=== FILE: entitlements.dfy ===
/** The entitlement queries: pure lookups in the purchase cache, false
    before the store is loaded, and forced true by the debug flag. */
module Entitlements {
  import opened Billing
  import opened StoreState

  /** The Java `for` loop over the sku list: true at the first sku that is
      a cache key. */
  function AnyCached(cache: Cache, skus: seq<string>): (r: bool)
    ensures r <==> exists i :: 0 <= i < |skus| && skus[i] in cache
  {
    if |skus| == 0 then false
    else if skus[0] in cache then true
    else
      var rest := AnyCached(cache, skus[1..]);
      assert forall i :: 1 <= i < |skus| ==> skus[i] == skus[1..][i - 1];
      rest
  }

  /** The shared body of `hasAnyConsumable(list)` and `isSubscribedToAny(list)`. */
  function AnyOwned(s: Store, skus: seq<string>): bool {
    if IsStoreLoaded(s) then s.debuggable || AnyCached(s.purchaseCache.value, skus) else false
  }

  function HasAnyConsumable(s: Store, skus: seq<string>): (r: bool)
    ensures !IsStoreLoaded(s) ==> !r
    ensures IsStoreLoaded(s) && s.debuggable ==> r
    ensures IsStoreLoaded(s) && !s.debuggable ==>
      (r <==> exists k :: k in skus && k in s.purchaseCache.value)
  {
    AnyOwned(s, skus)
  }

  function IsSubscribedToAny(s: Store, skus: seq<string>): (r: bool)
    ensures !IsStoreLoaded(s) ==> !r
    ensures IsStoreLoaded(s) && s.debuggable ==> r
    ensures IsStoreLoaded(s) && !s.debuggable ==>
      (r <==> exists k :: k in skus && k in s.purchaseCache.value)
  {
    AnyOwned(s, skus)
  }

  /** The no-argument forms query the managed lists. */
  function HasAnyManagedConsumable(s: Store): (r: bool)
    ensures r <==> IsStoreLoaded(s) && (s.debuggable || exists k :: k in s.inAppSkus && k in s.purchaseCache.value)
  {
    HasAnyConsumable(s, s.inAppSkus)
  }

  function IsSubscribedToAnyManaged(s: Store): (r: bool)
    ensures r <==> IsStoreLoaded(s) && (s.debuggable || exists k :: k in s.subscriptionSkus && k in s.purchaseCache.value)
  {
    IsSubscribedToAny(s, s.subscriptionSkus)
  }

  /** The single-sku forms are the list forms on a one-element list. */
  function HasConsumable(s: Store, sku: string): (r: bool)
    ensures r <==> IsStoreLoaded(s) && (s.debuggable || sku in s.purchaseCache.value)
  {
    HasAnyConsumable(s, [sku])
  }

  function IsSubscribedTo(s: Store, sku: string): (r: bool)
    ensures r <==> IsStoreLoaded(s) && (s.debuggable || sku in s.purchaseCache.value)
  {
    IsSubscribedToAny(s, [sku])
  }

  /** Note the asymmetry: the debug flag makes this true even before the
      store is loaded, whereas the list queries still answer false then. */
  function HasAnySubOrConsumable(s: Store, subs: seq<string>, consumables: seq<string>): (r: bool)
    ensures s.debuggable ==> r
    ensures !s.debuggable ==>
      (r <==> IsStoreLoaded(s) && exists k :: (k in subs || k in consumables) && k in s.purchaseCache.value)
  {
    if s.debuggable then true else IsSubscribedToAny(s, subs) || HasAnyConsumable(s, consumables)
  }

  function HasAnyManagedSubOrConsumable(s: Store): (r: bool)
    ensures s.debuggable ==> r
    ensures !s.debuggable ==> (r <==> IsSubscribedToAnyManaged(s) || HasAnyManagedConsumable(s))
  {
    HasAnySubOrConsumable(s, s.subscriptionSkus, s.inAppSkus)
  }

  /** Before loading, with the debug flag set, the combined query says yes
      while both of its parts say no. */
  lemma DebugOverrideBeforeLoad(s: Store, subs: seq<string>, consumables: seq<string>)
    requires !IsStoreLoaded(s) && s.debuggable
    ensures HasAnySubOrConsumable(s, subs, consumables)
    ensures !IsSubscribedToAny(s, subs) && !HasAnyConsumable(s, consumables)
  {
  }

  /** Queries only read the cache: the answer depends on nothing but the
      load state, the debug flag and which skus are cache keys. */
  lemma QueriesIgnoreCachedValues(s: Store, t: Store, skus: seq<string>)
    requires s.debuggable == t.debuggable
    requires s.purchaseCache.None? <==> t.purchaseCache.None?
    requires s.purchaseCache.Some? ==> s.purchaseCache.value.Keys == t.purchaseCache.value.Keys
    ensures HasAnyConsumable(s, skus) == HasAnyConsumable(t, skus)
    ensures IsSubscribedToAny(s, skus) == IsSubscribedToAny(t, skus)
  {
  }
}

=== FILE: intake.dfy ===
/** The purchase intake pipeline: `handlePurchase` classifies one purchase
    update by response code and purchase state, puts granted products into
    the cache, drives the acknowledgement and raises listener events;
    `acknowledgePurchase` decides whether an acknowledgement is sent. The
    acknowledgement's own answer is an input. */
module Intake {
  import opened Wrappers
  import opened Billing
  import opened StoreState
  import Reconciliation

  /** What became of the acknowledgement step for one purchase. */
  datatype AckResult = AckNotIssued | AckSucceeded | AckFailed(code: int)

  datatype AckStep = AckStep(requests: seq<Request>, result: AckResult)

  /** `acknowledgePurchase`: an acknowledgement is sent exactly for an
      unacknowledged PURCHASED purchase, and its answer decides the
      outcome; otherwise nothing is sent and the caller is never called
      back. */
  function AcknowledgePurchase(p: Purchase, ackCode: int): (r: AckStep)
    ensures r.result.AckNotIssued? <==> p.acknowledged || p.state != Purchased
    ensures r.result.AckNotIssued? ==> r.requests == []
    ensures !r.result.AckNotIssued? ==> r.requests == [Acknowledge(p.token)]
    ensures r.result.AckSucceeded? <==> !r.result.AckNotIssued? && ackCode == OK
    ensures r.result.AckFailed? ==> r.result.code == ackCode && ackCode != OK
  {
    if !p.acknowledged && p.state == Purchased then
      AckStep([Acknowledge(p.token)], if ackCode == OK then AckSucceeded else AckFailed(ackCode))
    else AckStep([], AckNotIssued)
  }

  /** The listener events `handlePurchase` raises for an acknowledgement
      outcome, with the failure code passed through as intended. */
  function AckEvents(a: AckResult): (r: seq<StoreEvent>)
    ensures a.AckNotIssued? <==> r == []
    ensures a.AckSucceeded? ==> r == [PurchaseComplete(None)]
    ensures a.AckFailed? ==> r == [PurchaseError(a.code)]
  {
    match a
    case AckNotIssued => []
    case AckSucceeded => [PurchaseComplete(None)]
    case AckFailed(code) => [PurchaseError(code)]
  }

  /** The same mapping as the Java code writes it: the failure callback
      receives the Integer response code, but the handler only passes a
      code through when it is a BillingResult, so every acknowledgement
      failure is reported as PURCHASE_FAIL_UNKNOWN. */
  function AckEventsAsWritten(a: AckResult): (r: seq<StoreEvent>)
    ensures a.AckFailed? ==> r == [PurchaseError(PURCHASE_FAIL_UNKNOWN)]
    ensures !a.AckFailed? ==> r == AckEvents(a)
  {
    match a
    case AckFailed(_) => [PurchaseError(PURCHASE_FAIL_UNKNOWN)]
    case _ => AckEvents(a)
  }

  /** As written, the backend's acknowledgement code never reaches the
      listeners: two different failure codes produce the same event. */
  lemma AckFailureCodeLost(code: int)
    requires code != OK && code != PURCHASE_FAIL_UNKNOWN
    ensures AckEventsAsWritten(AckFailed(code)) != AckEvents(AckFailed(code))
    ensures AckEventsAsWritten(AckFailed(code)) == AckEventsAsWritten(AckFailed(PURCHASE_FAIL_UNKNOWN))
  {
  }

  /** A response code and state under which the purchase is an entitlement. */
  predicate GrantsEntitlement(p: Purchase, code: int) {
    (code == OK || code == ITEM_ALREADY_OWNED) && p.state == Purchased
  }

  /** The purchase writes into the cache: it is granted and names at
      least one product (the Java loop over an empty product list touches
      nothing, not even the field). */
  predicate WritesCache(p: Purchase, code: int) {
    GrantsEntitlement(p, code) && |p.products| > 0
  }

  /** Adding a granted purchase's products to the cache, as the two
      granting branches of `handlePurchase` do. */
  function Grant(s: Store, p: Purchase): (r: Store)
    requires |p.products| > 0 ==> IsStoreLoaded(s)
    ensures IsStoreLoaded(r) <==> IsStoreLoaded(s)
    ensures r.(purchaseCache := s.purchaseCache) == s
    ensures !IsStoreLoaded(s) ==> r == s
    ensures IsStoreLoaded(s) ==>
      && (forall k :: k in r.purchaseCache.value <==> k in s.purchaseCache.value || k in p.products)
      && (forall k :: k in p.products ==> r.purchaseCache.value[k] == p)
      && (forall k :: k in s.purchaseCache.value && k !in p.products ==>
            r.purchaseCache.value[k] == s.purchaseCache.value[k])
  {
    if s.purchaseCache.Some? then s.(purchaseCache := Some(PutProducts(s.purchaseCache.value, p))) else s
  }

  /** `handlePurchase` for one purchase update. Only the cache changes in
      the store, and only the two granting branches read the cache field,
      so only they need the store to be loaded; the acknowledgement's
      answer is `ackCode`. */
  function HandlePurchase(s: Store, p: Purchase, code: int, ackCode: int): (r: Transition)
    requires WritesCache(p, code) ==> IsStoreLoaded(s)
    ensures IsStoreLoaded(r.store) <==> IsStoreLoaded(s)
    ensures r.store.(purchaseCache := s.purchaseCache) == s
    ensures GrantsEntitlement(p, code) && IsStoreLoaded(s) ==>
      && (forall k :: k in r.store.purchaseCache.value <==> k in s.purchaseCache.value || k in p.products)
      && (forall k :: k in p.products ==> r.store.purchaseCache.value[k] == p)
      && (forall k :: k in s.purchaseCache.value && k !in p.products ==>
            r.store.purchaseCache.value[k] == s.purchaseCache.value[k])
    ensures !GrantsEntitlement(p, code) || !IsStoreLoaded(s) ==> r.store == s
    ensures r.requests == if code == OK && p.state == Purchased && !p.acknowledged
                          then [Acknowledge(p.token)] else []
    ensures code != OK && code != ITEM_ALREADY_OWNED ==> r.events == [PurchaseError(code)]
    ensures code == OK && p.state == Pending ==> r.events == [PurchasePending(None)]
    ensures code == ITEM_ALREADY_OWNED && p.state == Purchased ==> r.events == [PurchaseComplete(None)]
    ensures code == OK && p.state == Purchased && p.acknowledged ==> r.events == []
    ensures code == OK && p.state == Purchased && !p.acknowledged ==>
      r.events == if ackCode == OK then [PurchaseComplete(None)] else [PurchaseError(ackCode)]
    ensures (code == OK || code == ITEM_ALREADY_OWNED) && p.state == Unspecified ==> r.events == []
    ensures code == ITEM_ALREADY_OWNED && p.state != Purchased ==> r.events == []
  {
    if code == OK then
      if p.state == Purchased then
        var ack := AcknowledgePurchase(p, ackCode);
        Transition(Grant(s, p), AckEvents(ack.result), ack.requests)
      else if p.state == Pending then
        Transition(s, [PurchasePending(None)], [])
      else Transition(s, [], [])
    else if code == ITEM_ALREADY_OWNED then
      if p.state == Purchased then
        Transition(Grant(s, p), [PurchaseComplete(None)], [])
      else Transition(s, [], [])
    else Transition(s, [PurchaseError(code)], [])
  }

  /** A failed acknowledgement does not roll back the cache insertion: the
      store is the same whatever the acknowledgement answers. */
  lemma NoRollbackOnAckFailure(s: Store, p: Purchase, code: int, ackOk: int, ackFail: int)
    requires WritesCache(p, code) ==> IsStoreLoaded(s)
    ensures HandlePurchase(s, p, code, ackOk).store == HandlePurchase(s, p, code, ackFail).store
  {
  }

  /** Handling the same update twice leaves the store as handling it once. */
  lemma HandlePurchaseIdempotent(s: Store, p: Purchase, code: int, ack1: int, ack2: int)
    requires WritesCache(p, code) ==> IsStoreLoaded(s)
    ensures HandlePurchase(HandlePurchase(s, p, code, ack1).store, p, code, ack2).store
         == HandlePurchase(s, p, code, ack1).store
  {
    var once := HandlePurchase(s, p, code, ack1).store;
    var twice := HandlePurchase(once, p, code, ack2).store;
    if GrantsEntitlement(p, code) && IsStoreLoaded(s) {
      assert twice.purchaseCache.value == once.purchaseCache.value;
    }
  }

  /** Folding put over the old cache: putting into `base + m` is `base`
      overridden by putting into `m`. */
  lemma PutAllOverride(base: Cache, m: Cache, ks: seq<string>, p: Purchase)
    ensures PutAll(base + m, ks, p) == base + PutAll(m, ks, p)
  {
  }

  /** No purchase of the batch writes into the cache under `code`. */
  predicate NoCacheWrites(ps: seq<Purchase>, code: int) {
    forall i :: 0 <= i < |ps| ==> !WritesCache(ps[i], code)
  }

  /** The purchases-updated listener: a null list does nothing; otherwise
      each purchase goes through `handlePurchase` in order, its
      acknowledgement answered by `ackReply` of its token. The store need
      only be loaded when some purchase of the batch writes into the
      cache. */
  function HandleAll(s: Store, ps: seq<Purchase>, code: int, ackReply: string -> int): (r: Transition)
    requires !IsStoreLoaded(s) ==> NoCacheWrites(ps, code)
    ensures IsStoreLoaded(r.store) <==> IsStoreLoaded(s)
    ensures r.store.(purchaseCache := s.purchaseCache) == s
    ensures !IsStoreLoaded(s) ==> r.store == s
    decreases |ps|
  {
    if |ps| == 0 then Transition(s, [], [])
    else
      var n := |ps| - 1;
      var before := HandleAll(s, ps[..n], code, ackReply);
      var last := HandlePurchase(before.store, ps[n], code, ackReply(ps[n].token));
      Transition(last.store, before.events + last.events, before.requests + last.requests)
  }

  function OnPurchasesUpdated(s: Store, code: int, purchases: Option<seq<Purchase>>, ackReply: string -> int): (r: Transition)
    requires purchases.Some? && !IsStoreLoaded(s) ==> NoCacheWrites(purchases.value, code)
    ensures purchases.None? ==> r == Transition(s, [], [])
    ensures purchases.Some? ==> r == HandleAll(s, purchases.value, code, ackReply)
    ensures IsStoreLoaded(r.store) <==> IsStoreLoaded(s)
    ensures r.store.(purchaseCache := s.purchaseCache) == s
  {
    if purchases.None? then Transition(s, [], []) else HandleAll(s, purchases.value, code, ackReply)
  }

  /** The acknowledgements a batch should send, defined front to back
      independently of the handler: one per unacknowledged PURCHASED
      purchase, in batch order. */
  function AckRequests(ps: seq<Purchase>): seq<Request>
    decreases |ps|
  {
    if |ps| == 0 then []
    else (if ps[0].state == Purchased && !ps[0].acknowledged then [Acknowledge(ps[0].token)] else [])
         + AckRequests(ps[1..])
  }

  lemma {:induction false} AckRequestsAppend(a: seq<Purchase>, b: seq<Purchase>)
    ensures AckRequests(a + b) == AckRequests(a) + AckRequests(b)
    decreases |a|
  {
    if |a| > 0 {
      assert (a + b)[0] == a[0];
      assert (a + b)[1..] == a[1..] + b;
      AckRequestsAppend(a[1..], b);
    } else {
      assert a + b == b;
    }
  }

  /** The requests a batch sends: under OK, one acknowledgement per
      unacknowledged PURCHASED purchase, in batch order; under any other
      code, ITEM_ALREADY_OWNED included, nothing. */
  lemma {:induction false} BatchRequests(s: Store, ps: seq<Purchase>, code: int, ackReply: string -> int)
    requires !IsStoreLoaded(s) ==> NoCacheWrites(ps, code)
    ensures code == OK ==> HandleAll(s, ps, code, ackReply).requests == AckRequests(ps)
    ensures code != OK ==> HandleAll(s, ps, code, ackReply).requests == []
    decreases |ps|
  {
    if |ps| > 0 {
      var n := |ps| - 1;
      BatchRequests(s, ps[..n], code, ackReply);
      assert ps == ps[..n] + [ps[n]];
      AckRequestsAppend(ps[..n], [ps[n]]);
      assert [ps[n]][1..] == [];
    }
  }

  /** A successful update batch merges into the cache exactly what a
      reconciliation over the same purchases would collect: the old cache
      overridden by every PURCHASED purchase, the last one winning. */
  lemma {:induction false} IntakeMergesLikeReconciliation(s: Store, ps: seq<Purchase>, code: int, ackReply: string -> int)
    requires IsStoreLoaded(s)
    requires code == OK || code == ITEM_ALREADY_OWNED
    ensures HandleAll(s, ps, code, ackReply).store.purchaseCache.value
         == s.purchaseCache.value + Reconciliation.CollectPurchased(ps)
    decreases |ps|
  {
    if |ps| > 0 {
      var n := |ps| - 1;
      IntakeMergesLikeReconciliation(s, ps[..n], code, ackReply);
      var prev := Reconciliation.CollectPurchased(ps[..n]);
      if ps[n].state == Purchased {
        PutAllOverride(s.purchaseCache.value, prev, ps[n].products, ps[n]);
      }
    }
  }

  /** A batch under any code other than OK or ITEM_ALREADY_OWNED leaves the
      store alone, sends nothing, and raises one error per purchase. */
  lemma {:induction false} RejectedBatch(s: Store, ps: seq<Purchase>, code: int, ackReply: string -> int)
    requires code != OK && code != ITEM_ALREADY_OWNED
    ensures HandleAll(s, ps, code, ackReply).store == s
    ensures HandleAll(s, ps, code, ackReply).requests == []
    ensures HandleAll(s, ps, code, ackReply).events == seq(|ps|, _ => PurchaseError(code))
    decreases |ps|
  {
    if |ps| > 0 {
      RejectedBatch(s, ps[..|ps| - 1], code, ackReply);
    }
  }

  /** Handling one update keeps the cache invariant: only PURCHASED
      purchases are put, each under its own products. */
  lemma HandlePurchaseKeepsWellFormed(s: Store, p: Purchase, code: int, ackCode: int)
    requires WritesCache(p, code) ==> IsStoreLoaded(s)
    requires Reconciliation.CacheWellFormed(s)
    ensures Reconciliation.CacheWellFormed(HandlePurchase(s, p, code, ackCode).store)
  {
  }

  /** A whole update batch keeps the cache invariant. */
  lemma {:induction false} HandleAllKeepsWellFormed(s: Store, ps: seq<Purchase>, code: int, ackReply: string -> int)
    requires !IsStoreLoaded(s) ==> NoCacheWrites(ps, code)
    requires Reconciliation.CacheWellFormed(s)
    ensures Reconciliation.CacheWellFormed(HandleAll(s, ps, code, ackReply).store)
    decreases |ps|
  {
    if |ps| > 0 {
      var n := |ps| - 1;
      HandleAllKeepsWellFormed(s, ps[..n], code, ackReply);
      var before := HandleAll(s, ps[..n], code, ackReply);
      HandlePurchaseKeepsWellFormed(before.store, ps[n], code, ackReply(ps[n].token));
    }
  }
}

=== FILE: listeners.dfy ===
/** Listener registration and event fan-out. The listener list is an
    ordered list compared by identity; registration never creates a
    duplicate, and removal deletes the first occurrence. */
module Listeners {
  import opened Billing

  /** Listeners are compared by identity; an identity is a number here. */
  type Listener = nat

  predicate NoDuplicates(s: seq<Listener>) {
    forall i, j :: 0 <= i < j < |s| ==> s[i] != s[j]
  }

  /** Registers `l` unless it is already registered. */
  function AddListener(ls: seq<Listener>, l: Listener): (r: seq<Listener>)
    ensures l in r
    ensures l in ls ==> r == ls
    ensures l !in ls ==> r == ls + [l]
    ensures forall x :: x in r <==> x in ls || x == l
    ensures |ls| <= |r| <= |ls| + 1
    ensures r[..|ls|] == ls
    ensures NoDuplicates(ls) ==> NoDuplicates(r)
  {
    if l in ls then ls else ls + [l]
  }

  /** Registering twice is the same as registering once. */
  lemma AddListenerIdempotent(ls: seq<Listener>, l: Listener)
    ensures AddListener(AddListener(ls, l), l) == AddListener(ls, l)
  {
  }

  /** Position of the first occurrence of `l`. */
  function FirstIndex(ls: seq<Listener>, l: Listener): (i: nat)
    requires l in ls
    ensures i < |ls| && ls[i] == l && l !in ls[..i]
  {
    if ls[0] == l then 0 else 1 + FirstIndex(ls[1..], l)
  }

  /** Unregisters the first occurrence of `l`; a listener that is not
      registered leaves the list unchanged. */
  function RemoveListener(ls: seq<Listener>, l: Listener): (r: seq<Listener>)
    ensures l !in ls ==> r == ls
    ensures l in ls ==> r == ls[..FirstIndex(ls, l)] + ls[FirstIndex(ls, l) + 1..]
  {
    if |ls| == 0 then []
    else if ls[0] == l then ls[1..]
    else
      var rest := RemoveListener(ls[1..], l);
      assert l in ls ==> l in ls[1..];
      assert l in ls ==> ls[..FirstIndex(ls, l)] == [ls[0]] + ls[1..][..FirstIndex(ls[1..], l)];
      [ls[0]] + rest
  }

  /** On a duplicate-free list, removal deletes `l` entirely and keeps
      every other listener, in order and without duplicates. */
  lemma RemoveListenerKeepsOthers(ls: seq<Listener>, l: Listener)
    requires NoDuplicates(ls)
    ensures l !in RemoveListener(ls, l)
    ensures NoDuplicates(RemoveListener(ls, l))
    ensures forall x :: x in RemoveListener(ls, l) <==> x in ls && x != l
  {
  }

  /** Removing a listener undoes adding it, when it was not registered. */
  lemma RemoveUndoesAdd(ls: seq<Listener>, l: Listener)
    requires l !in ls
    ensures RemoveListener(AddListener(ls, l), l) == ls
  {
  }

  /** One delivery of an event to one listener. */
  datatype Delivery = Delivery(listener: Listener, event: StoreEvent)

  /** Fan-out of one event: every listener, in registration order. */
  function Deliver(ls: seq<Listener>, e: StoreEvent): (r: seq<Delivery>)
    ensures |r| == |ls|
    ensures forall j :: 0 <= j < |ls| ==> r[j] == Delivery(ls[j], e)
  {
    seq(|ls|, j requires 0 <= j < |ls| => Delivery(ls[j], e))
  }

  /** With a duplicate-free listener list, each registered listener gets
      the event exactly once and nobody else gets it. */
  lemma DeliverExactlyOnce(ls: seq<Listener>, e: StoreEvent, l: Listener)
    requires NoDuplicates(ls)
    ensures Delivery(l, e) in Deliver(ls, e) <==> l in ls
    ensures forall i, j :: 0 <= i < j < |ls| ==> Deliver(ls, e)[i] != Deliver(ls, e)[j]
  {
  }

  /** Fan-out of an event list: events in order, each to every listener. */
  function DeliverAll(ls: seq<Listener>, events: seq<StoreEvent>): (r: seq<Delivery>)
    ensures |r| == |events| * |ls|
    ensures forall d :: d in r ==> d.listener in ls && d.event in events
  {
    if |events| == 0 then []
    else
      var head := Deliver(ls, events[0]);
      var rest := DeliverAll(ls, events[1..]);
      assert forall d :: d in rest ==> d.event in events by {
        forall d | d in rest ensures d.event in events {
          assert d.event in events[1..];
        }
      }
      head + rest
  }

  /** Fanning out two event lists one after the other is fanning out
      their concatenation. */
  lemma {:induction false} DeliverAllAppend(ls: seq<Listener>, a: seq<StoreEvent>, b: seq<StoreEvent>)
    ensures DeliverAll(ls, a + b) == DeliverAll(ls, a) + DeliverAll(ls, b)
    decreases |a|
  {
    if |a| > 0 {
      assert (a + b)[0] == a[0];
      assert (a + b)[1..] == a[1..] + b;
      DeliverAllAppend(ls, a[1..], b);
    } else {
      assert a + b == b;
    }
  }

  /** Events are delivered one after another, each to the whole list:
      the deliveries of event `i` come after those of every earlier event
      and before those of every later one. */
  lemma DeliverAllInOrder(ls: seq<Listener>, events: seq<StoreEvent>, i: nat)
    requires i < |events|
    ensures DeliverAll(ls, events)
         == DeliverAll(ls, events[..i]) + Deliver(ls, events[i]) + DeliverAll(ls, events[i + 1..])
  {
    assert events == events[..i] + ([events[i]] + events[i + 1..]);
    DeliverAllAppend(ls, events[..i], [events[i]] + events[i + 1..]);
    DeliverAllAppend(ls, [events[i]], events[i + 1..]);
    assert [events[i]][1..] == [];
    assert DeliverAll(ls, [events[i]]) == Deliver(ls, events[i]);
  }

}

=== FILE: reconciliation.dfy ===
/** Rebuilding the purchase cache from the backend's purchase queries:
    `getPurchases` turns one query answer into a map of owned products, and
    `updatePurchaseCache` runs the in-app query, then the subscription
    query, and installs the union only when both succeed. */
module Reconciliation {
  import opened Wrappers
  import opened Billing
  import opened StoreState

  /** The inner loop of `getPurchases` for one purchase: a PURCHASED
      purchase claims each of its products; any other state adds nothing. */
  function KeepIfPurchased(m: Cache, p: Purchase): Cache {
    if p.state == Purchased then PutProducts(m, p) else m
  }

  /** Some purchase at index `i` grants product `k`. */
  predicate Grants(ps: seq<Purchase>, i: int, k: string)
    requires 0 <= i < |ps|
  {
    ps[i].state == Purchased && k in ps[i].products
  }

  /** Purchase `i` grants `k` and no later purchase does. */
  predicate IsLastGrant(ps: seq<Purchase>, i: int, k: string)
    requires 0 <= i < |ps|
  {
    Grants(ps, i, k) && forall j :: i < j < |ps| ==> !Grants(ps, j, k)
  }

  /** The outer loop of `getPurchases`: purchases visited in order, later
      purchases overwriting earlier ones for a shared product. */
  function CollectPurchased(ps: seq<Purchase>): Cache
    decreases |ps|
  {
    if |ps| == 0 then map[]
    else KeepIfPurchased(CollectPurchased(ps[..|ps| - 1]), ps[|ps| - 1])
  }

  /** A product is collected exactly when some PURCHASED purchase covers it. */
  lemma {:induction false} CollectedKeys(ps: seq<Purchase>, k: string)
    ensures k in CollectPurchased(ps) <==> exists i :: 0 <= i < |ps| && Grants(ps, i, k)
    decreases |ps|
  {
    if |ps| > 0 {
      var n := |ps| - 1;
      CollectedKeys(ps[..n], k);
      assert forall i :: 0 <= i < n ==> (Grants(ps[..n], i, k) <==> Grants(ps, i, k));
      if Grants(ps, n, k) {
        assert k in CollectPurchased(ps);
      } else if k in CollectPurchased(ps) {
        var i :| 0 <= i < n && Grants(ps[..n], i, k);
        assert Grants(ps, i, k);
      }
    }
  }

  /** A collected product maps to the last PURCHASED purchase covering it. */
  lemma {:induction false} CollectedValue(ps: seq<Purchase>, k: string)
    requires k in CollectPurchased(ps)
    ensures exists i :: 0 <= i < |ps| && IsLastGrant(ps, i, k) && CollectPurchased(ps)[k] == ps[i]
    decreases |ps|
  {
    var n := |ps| - 1;
    if Grants(ps, n, k) {
      assert IsLastGrant(ps, n, k);
    } else {
      CollectedValue(ps[..n], k);
      var i :| 0 <= i < n && IsLastGrant(ps[..n], i, k) && CollectPurchased(ps[..n])[k] == ps[..n][i];
      assert ps[..n][i] == ps[i];
      forall j | i < j < |ps| ensures !Grants(ps, j, k) {
        if j < n {
          assert ps[..n][j] == ps[j] && !Grants(ps[..n], j, k);
        }
      }
      assert IsLastGrant(ps, i, k);
    }
  }

  /** Every cached purchase is PURCHASED and covers its key. */
  predicate WellFormed(c: Cache) {
    forall k :: k in c ==> c[k].state == Purchased && k in c[k].products
  }

  /** The cache invariant on a store: a loaded cache is well formed. */
  predicate CacheWellFormed(s: Store) {
    s.purchaseCache.Some? ==> WellFormed(s.purchaseCache.value)
  }

  /** `getPurchases` as the Java loop does it: nested loops over purchases
      and their products, putting each product of a PURCHASED purchase. */
  method GetPurchasesLoop(ps: seq<Purchase>) returns (m: Cache)
    ensures m == CollectPurchased(ps)
  {
    m := map[];
    var i := 0;
    while i < |ps|
      invariant 0 <= i <= |ps|
      invariant m == CollectPurchased(ps[..i])
    {
      var p := ps[i];
      ghost var before := m;
      var j := 0;
      while j < |p.products|
        invariant 0 <= j <= |p.products|
        invariant m == if p.state == Purchased then PutAll(before, p.products[..j], p) else before
      {
        if p.state == Purchased {
          m := m[p.products[j] := p];
        }
        assert p.products[..j + 1][..j] == p.products[..j];
        j := j + 1;
      }
      assert p.products[..j] == p.products;
      assert ps[..i + 1][..i] == ps[..i];
      i := i + 1;
    }
    assert ps[..i] == ps;
  }

  /** The answer `getPurchases` reports for one query: the owned-product
      map on OK, the response code otherwise. */
  function GetPurchases(reply: PurchasesReply): (r: Result<Cache, int>)
    ensures reply.code == OK <==> r.Success?
    ensures r.Failure? ==> r.error == reply.code
    ensures r.Success? ==> WellFormed(r.value)
    ensures r.Success? ==> forall k :: k in r.value <==>
      exists i :: 0 <= i < |reply.purchases| && Grants(reply.purchases, i, k)
    ensures r.Success? ==> forall k :: k in r.value ==>
      exists i :: 0 <= i < |reply.purchases| && IsLastGrant(reply.purchases, i, k) && r.value[k] == reply.purchases[i]
  {
    if reply.code == OK then
      var m := CollectPurchased(reply.purchases);
      assert WellFormed(m) by {
        forall k | k in m ensures m[k].state == Purchased && k in m[k].products {
          CollectedValue(reply.purchases, k);
        }
      }
      assert forall k :: k in m <==> exists i :: 0 <= i < |reply.purchases| && Grants(reply.purchases, i, k) by {
        forall k ensures k in m <==> exists i :: 0 <= i < |reply.purchases| && Grants(reply.purchases, i, k) {
          CollectedKeys(reply.purchases, k);
        }
      }
      assert forall k :: k in m ==>
        exists i :: 0 <= i < |reply.purchases| && IsLastGrant(reply.purchases, i, k) && m[k] == reply.purchases[i] by {
        forall k | k in m
          ensures exists i :: 0 <= i < |reply.purchases| && IsLastGrant(reply.purchases, i, k) && m[k] == reply.purchases[i]
        {
          CollectedValue(reply.purchases, k);
        }
      }
      Success(m)
    else Failure(reply.code)
  }

  /** What a reconciliation hands to its caller's success/failure callback. */
  datatype Reconciled = Reconciled(store: Store, requests: seq<Request>, callback: Result<Cache, int>)

  /** `updatePurchaseCache`: the in-app query, and only after it succeeds
      the subscription query. The cache is replaced by the union of both
      answers (subscriptions win a shared key) only when both succeed;
      otherwise the store is untouched and the first failing code is
      reported. */
  function UpdatePurchaseCache(s: Store, inApp: PurchasesReply, subs: PurchasesReply): (r: Reconciled)
    ensures 1 <= |r.requests| <= 2 && r.requests[0] == QueryPurchases(InApp)
    ensures |r.requests| == 2 <==> inApp.code == OK
    ensures |r.requests| == 2 ==> r.requests[1] == QueryPurchases(Subs)
    ensures r.callback.Success? <==> inApp.code == OK && subs.code == OK
    ensures inApp.code != OK ==> r.callback == Failure(inApp.code)
    ensures inApp.code == OK && subs.code != OK ==> r.callback == Failure(subs.code)
    ensures r.callback.Failure? ==> r.store == s
    ensures r.callback.Success? ==>
      && r.store == s.(purchaseCache := Some(r.callback.value))
      && r.callback.value.Keys == CollectPurchased(inApp.purchases).Keys + CollectPurchased(subs.purchases).Keys
      && (forall k :: k in CollectPurchased(subs.purchases) ==>
            r.callback.value[k] == CollectPurchased(subs.purchases)[k])
      && (forall k :: k in CollectPurchased(inApp.purchases) && k !in CollectPurchased(subs.purchases) ==>
            r.callback.value[k] == CollectPurchased(inApp.purchases)[k])
  {
    match GetPurchases(inApp)
    case Failure(code) => Reconciled(s, [QueryPurchases(InApp)], Failure(code))
    case Success(inAppOwned) =>
      var requests := [QueryPurchases(InApp), QueryPurchases(Subs)];
      match GetPurchases(subs)
      case Failure(code) => Reconciled(s, requests, Failure(code))
      case Success(subsOwned) =>
        var updated := inAppOwned + subsOwned;
        Reconciled(s.(purchaseCache := Some(updated)), requests, Success(updated))
  }

  /** A successful reconciliation leaves only PURCHASED purchases in the
      cache, each under one of its own products. */
  lemma ReconciledCacheWellFormed(s: Store, inApp: PurchasesReply, subs: PurchasesReply)
    requires inApp.code == OK && subs.code == OK
    ensures UpdatePurchaseCache(s, inApp, subs).store.purchaseCache.Some?
    ensures WellFormed(UpdatePurchaseCache(s, inApp, subs).store.purchaseCache.value)
  {
  }

  /** Reconciliation issues only the two queries: it never acknowledges
      or consumes. */
  lemma ReconciliationOnlyQueries(s: Store, inApp: PurchasesReply, subs: PurchasesReply)
    ensures forall q :: q in UpdatePurchaseCache(s, inApp, subs).requests ==> q.QueryPurchases?
  {
  }

  /** Purchases A (PURCHASED), B (PENDING) and C (other) in one in-app
      answer, with an empty subscription answer, leave exactly A cached. */
  lemma OnlyPurchasedSurvive(s: Store, tA: string, tB: string, tC: string)
    ensures
      var a := Purchase(["A"], tA, Purchased, false);
      var b := Purchase(["B"], tB, Pending, false);
      var c := Purchase(["C"], tC, Unspecified, false);
      var r := UpdatePurchaseCache(s, PurchasesReply(OK, [a, b, c]), PurchasesReply(OK, []));
      r.store.purchaseCache == Some(map["A" := a])
  {
    var a := Purchase(["A"], tA, Purchased, false);
    var b := Purchase(["B"], tB, Pending, false);
    var c := Purchase(["C"], tC, Unspecified, false);
    var ps := [a, b, c];
    assert ps[..1] == [a] && ps[..2] == [a, b] && [a, b][..1] == [a] && [a][..0] == [];
    assert CollectPurchased([a]) == map["A" := a];
    assert CollectPurchased([a, b]) == map["A" := a];
    assert CollectPurchased(ps) == map["A" := a];
    assert GetPurchases(PurchasesReply(OK, ps)) == Success(map["A" := a]);
    assert GetPurchases(PurchasesReply(OK, [])) == Success(map[]);
    assert map["A" := a] + map[] == map["A" := a];
  }
}

=== FILE: scenarios.dfy ===
/** End-to-end runs of the store manager on concrete backend answers. */
module Scenarios {
  import opened Wrappers
  import opened Billing
  import opened StoreState
  import Reconciliation
  import Connection
  import Entitlements
  import Consumption

  /** Managed subscription "premium_monthly" and consumable "coins_100";
      the backend reports one unacknowledged PURCHASED coins_100 purchase
      and no subscription. Setup on a connected client caches coins_100,
      answers the consumable query yes and the subscription query no,
      and issues only the two purchase queries: reconciliation does not
      acknowledge. Consuming coins_100 afterwards empties the cache and
      hands back the backend's token. */
  lemma CoinsScenario(t1: string, t2: string)
    ensures
      var coins := Purchase(["coins_100"], t1, Purchased, false);
      var setup := Connection.SetupBillingProcessor(
        Initial, ["premium_monthly"], ["coins_100"],
        _ => Connected, _ => OK,
        PurchasesReply(OK, [coins]), PurchasesReply(OK, []));
      && setup.store.purchaseCache == Some(map["coins_100" := coins])
      && setup.requests == [QueryPurchases(InApp), QueryPurchases(Subs)]
      && Entitlements.HasAnyManagedConsumable(setup.store)
      && !Entitlements.IsSubscribedToAnyManaged(setup.store)
      && var consumed := Consumption.ConsumePurchase(setup.store, "coins_100", Consumption.ConsumeReply(OK, t2));
         && consumed.callback == Success(t2)
         && consumed.requests == [Consume(t1)]
         && consumed.store.purchaseCache == Some(map[])
  {
    var coins := Purchase(["coins_100"], t1, Purchased, false);
    assert [coins][..0] == [];
    assert Reconciliation.CollectPurchased([coins]) == map["coins_100" := coins];
    assert Reconciliation.GetPurchases(PurchasesReply(OK, [coins])) == Success(map["coins_100" := coins]);
    assert Reconciliation.GetPurchases(PurchasesReply(OK, [])) == Success(map[]);
    assert map["coins_100" := coins] + map[] == map["coins_100" := coins];
    assert map["coins_100" := coins] - {"coins_100"} == map[];
  }
}

=== FILE: store_state.dfy ===
/** The store manager's mutable state, as one immutable record, and the
    setters that only replace configuration. */
module StoreState {
  import opened Wrappers
  import opened Billing
  import opened Listeners

  /** `purchaseCache == None` means the store has not been loaded yet. */
  datatype Store = Store(
    subscriptionSkus: seq<string>,
    inAppSkus: seq<string>,
    listeners: seq<Listener>,
    purchaseCache: Option<Cache>,
    debuggable: bool)

  /** The result of one operation: the new state, the events raised to
      listeners in order, and the backend calls issued in order. */
  datatype Transition = Transition(store: Store, events: seq<StoreEvent>, requests: seq<Request>)

  /** The singleton's state right after construction. */
  const Initial: Store := Store([], [], [], None, false)

  predicate IsStoreLoaded(s: Store) {
    s.purchaseCache.Some?
  }

  /** A null list resets that managed list to empty; a non-null list
      replaces it. Nothing else changes. */
  function SetManagedSkus(s: Store, subs: Option<seq<string>>, consumables: Option<seq<string>>): (r: Store)
    ensures subs.Some? ==> r.subscriptionSkus == subs.value
    ensures subs.None? ==> r.subscriptionSkus == []
    ensures consumables.Some? ==> r.inAppSkus == consumables.value
    ensures consumables.None? ==> r.inAppSkus == []
    ensures r.listeners == s.listeners && r.purchaseCache == s.purchaseCache && r.debuggable == s.debuggable
  {
    s.(subscriptionSkus := if subs.Some? then subs.value else [],
       inAppSkus := if consumables.Some? then consumables.value else [])
  }

  function SetDebuggable(s: Store, debuggable: bool): (r: Store)
    ensures r.debuggable == debuggable
    ensures r.(debuggable := s.debuggable) == s
  {
    s.(debuggable := debuggable)
  }

  /** `addEventListener`: registers `l` once; nothing else changes. */
  function AddEventListener(s: Store, l: Listener): (r: Store)
    ensures l in r.listeners
    ensures NoDuplicates(s.listeners) ==> NoDuplicates(r.listeners)
    ensures l in s.listeners ==> r == s
    ensures |s.listeners| <= |r.listeners| <= |s.listeners| + 1
    ensures r.listeners[..|s.listeners|] == s.listeners
    ensures forall x :: x in r.listeners <==> x in s.listeners || x == l
    ensures r.(listeners := s.listeners) == s
  {
    s.(listeners := AddListener(s.listeners, l))
  }

  /** `removeEventListener`: unregisters `l`; nothing else changes. */
  function RemoveEventListener(s: Store, l: Listener): (r: Store)
    ensures NoDuplicates(s.listeners) ==> l !in r.listeners && NoDuplicates(r.listeners)
    ensures l !in s.listeners ==> r == s
    ensures |r.listeners| == |s.listeners| - (if l in s.listeners then 1 else 0)
    ensures forall x :: x != l ==> (x in r.listeners <==> x in s.listeners)
    ensures l in s.listeners ==>
      var i := FirstIndex(s.listeners, l);
      r.listeners == s.listeners[..i] + s.listeners[i + 1..]
    ensures r.(listeners := s.listeners) == s
  {
    var r := s.(listeners := RemoveListener(s.listeners, l));
    if NoDuplicates(s.listeners) then RemoveListenerKeepsOthers(s.listeners, l); r else r
  }
}

=== FILE: wrappers.dfy ===
/** Option and Result wrappers used throughout the store model: `Option` for
    the values the Java code represents with `null`, and `Result` for the
    success/failure callbacks (`SuccessFailListener`). */
module Wrappers {

  datatype Option<+T> = None | Some(value: T)

  datatype Result<+R, +E> = Success(value: R) | Failure(error: E)
}
